=== FILE: README.md ===
# swayautonames — workspace naming, modelled in Dafny

swayautonames renames the workspaces of a tiling window manager after the
applications running on them. Each application identifier is replaced by a
configured symbol, or kept as is when none is configured. This project models
the pure part of that job for its two backends, plus the start-up choice of a
configuration file:

- **Sway** (`SwayTree`, `Sway`): the container tree as an immutable recursive
  `Node`. The containment test, the workspace walk, the window-name walk, the
  workspace label, and the `rename workspace "<old>" to "<new>"` commands that
  one update pass sends. All three walks in the source pop an explicit stack.
  They are modelled once, as a generic walk `Collect(root, emit, descend)` in
  right-to-left pre-order. The method `StackWalk` runs the stack loop and is
  proved to produce the same output.
- **Hyprland** (`Hyprland`): the equality join of clients to workspaces by
  workspace id, the `|`-joined name, and the renames dispatched in workspace
  order. The first failed query or dispatch stops the update.
- **Symbol mapping** (`Naming`): shared by both backends. An identifier with no
  entry in `app_symbols` passes through unchanged.
- **Configuration path** (`ConfigSearch`): the candidate list and the choice of
  the first existing candidate. An explicit path always wins.

Helpers live in `Wrappers` (`Option`, `Result`, `Outcome`), `Seqs` (reverse,
flat-map, filter) and `Text` (join, split, decimal formatting and parsing).

What the code does and does not do:

- The label has no fullscreen colour markup.
- Sway reacts only to new, close and move window events; fullscreen toggles are not among them.
- A failed IPC connection or round trip panics (src/wm/sway.rs:118, 121) and ends the pass. A rename that sway refuses is silently ignored, and the pass goes on.
- `get_workspace` is not used by the update pass. Its error means "not on exactly
  one workspace", although the message says "multiple".
- The Hyprland name has no number prefix and no reversal. It is dispatched
  without comparing it to the current name.
- A config reload that fails to parse installs the default config.

## Model

| member | source | states |
|---|---|---|
| SwayTree.StackWalk | src/wm/sway.rs:42-81 | The explicit-stack loop (pop the top, push the children left to right) emits exactly the recursive right-to-left pre-order walk |
| SwayTree.AllNodesReversed | src/wm/sway.rs:60-81 | Reversing the stack's pop order gives left-to-right post-order over `nodes` |
| SwayTree.CollectIsFlatMap | src/wm/sway.rs:84-89 | A walk that always pushes the children emits, node by node in pop order, what each node yields |
| Sway.Contains | src/wm/sway.rs:22-24 | `Node::contains`, recursive over the tiling children; its meaning is stated by `ContainsIffIdInSubtree` and `ContainsSelf` |
| Sway.ContainsIffIdInSubtree | src/wm/sway.rs:22-24 | `contains(n, m)` holds iff some node of `n`'s subtree, `n` included, has `m`'s id |
| Sway.ContainsSelf | src/wm/sway.rs:22-24 | Every node contains itself |
| Sway.WorkspaceNodesExposed | src/wm/sway.rs:42-58 | The workspace walk returns exactly the workspaces reached through non-workspace nodes; it never descends below a workspace and opens every child of every other node; everything returned is a workspace |
| Sway.GetWorkspaceNodes | src/wm/sway.rs:42-58 | The stack implementation returns the reference walk's workspaces, only workspaces, exactly the exposed ones |
| Sway.GetWorkspace | src/wm/sway.rs:26-40 | Succeeds, with that workspace, exactly when one listed workspace contains the node; errors when none or at least two do |
| Sway.WindowName | src/wm/sway.rs:64-74 | The name one node contributes (`app_id`, else the X11 instance, `Con` nodes only); its meaning over a whole subtree is stated by `WindowNamesSource` and `WindowNamesBound` |
| Sway.WindowNamesSource | src/wm/sway.rs:60-81 | A name is returned iff some `Con` of the subtree has it as `app_id`, or has no `app_id` and has it as instance |
| Sway.WindowNamesBound | src/wm/sway.rs:60-81 | At most one name per `Con` node of the subtree |
| Sway.GetWindowNames | src/wm/sway.rs:60-81 | The stack implementation returns the reference walk's names, at most one per `Con` |
| Sway.LeafWindowsInChildOrder | src/wm/sway.rs:60-81 | For a node whose children are leaves, the reversed names follow the children left to right |
| Naming.MapSymbols | src/wm/sway.rs:96-105 | Same length; each name becomes its configured symbol, or itself when it has none |
| Naming.MapSymbolsUnmapped | src/wm/sway.rs:100-104 | With no mapped identifier the list is unchanged |
| Naming.MapSymbolsReverse | src/wm/sway.rs:99-107 | Mapping then reversing equals reversing then mapping |
| Text.SplitJoin | src/wm/sway.rs:113 | Joining a non-empty list with `"\|"` is undone by splitting, when no part contains the separator |
| Text.DecimalRoundTrip | src/wm/sway.rs:111 | The decimal text of a workspace number parses back to it |
| Sway.FormatLabel | src/wm/sway.rs:110-114 | The bare number, or `"<num>: "` and the shown symbols joined by `\|`; `ParseFormatLabel` states that it is undone by parsing |
| Sway.Label | src/wm/sway.rs:96-114 | The label of a workspace from its window names in pop order; `LabelRoundTrip` and `LabelUnmapped` state what it shows |
| Sway.ParseFormatLabel | src/wm/sway.rs:110-114 | When no shown symbol contains `\|`, the bare number, or `"<num>: "` and the joined symbols, parses back to the number and the shown symbols |
| Sway.LabelRoundTrip | src/wm/sway.rs:96-114 | When no symbol contains `\|`, the label determines the workspace number and the mapped symbols in reverse order; no windows means the bare number |
| Sway.LabelUnmapped | src/wm/sway.rs:99-105 | When no window name is mapped and none contains `\|`, the label shows the raw identifiers, in reverse pop order |
| Sway.LabelAmbiguous | src/wm/sway.rs:113 | `\|` is not escaped: one window named `a\|b` and two windows `a`, `b` give the same label `1: a\|b` |
| Sway.LabelExampleReversed | src/wm/sway.rs:96-114 | Workspace 3 with windows `firefox`, `kitty` in pop order shows `3: kitty\|firefox` |
| Sway.LabelExampleEmpty | src/wm/sway.rs:110-111 | Workspace 5 without windows shows `5` |
| Sway.LabelExampleMapped | src/wm/sway.rs:96-114 | Workspace 1 with `kitty`, `firefox` and `firefox` mapped to a globe shows the globe, then `kitty` |
| Sway.LeafWorkspaceLabel | src/wm/sway.rs:96-114 | For a workspace of leaf windows, the label lists the children's symbols in child order; with no windows it is the bare number |
| Sway.RenameCommand | src/wm/sway.rs:119-120 | The unescaped command text; `RenameCommandRoundTrip` and `RenameCommandUnescaped` state when it can be read back |
| Sway.RenameCommandRoundTrip | src/wm/sway.rs:119-120 | The command text reads back as the old and new names when the old name has no quote |
| Sway.RenameCommandUnescaped | src/wm/sway.rs:119-120 | Quotes are not escaped: two different renames can give the same command text |
| Sway.RenameCommandsInPopOrder | src/wm/sway.rs:84-124 | The pass sends, node by node in pop order, the command each node alone calls for |
| Sway.RenameCommandsSpec | src/wm/sway.rs:90-121 | A command is sent iff some numbered workspace's label differs from its name (absent name = `""`), and its text is exactly `rename workspace "<old>" to "<new>"` for that workspace |
| Sway.RenameCommandsBound | src/wm/sway.rs:90-93 | At most one command per numbered workspace, so the scratchpad (no number) is never renamed |
| Sway.UpdateWorkspaceNames | src/wm/sway.rs:83-125 | The stack implementation returns the commands of the reference walk, exactly one per differing numbered workspace |
| Sway.NoCommandsWhenNamed | src/wm/sway.rs:115-117 | When every numbered workspace already has its label, no command is sent |
| Sway.ApplyNamesKeepsWindowNames | src/wm/sway.rs:64-74 | Renaming workspaces changes no window name, since names come from `Con` nodes only |
| Sway.RenameIdempotent | src/wm/sway.rs:115-117 | After every rename is applied, a second pass sends no command |
| Hyprland.ClientsOn | src/wm/hyprland.rs:22 | The equality join: a client is kept iff it is in the client list with that workspace's id (a filter, so list order is kept; see `ClientsOnAppend`) |
| Hyprland.WorkspaceName | src/wm/hyprland.rs:22-32 | The name of a workspace: its clients' symbols joined by `\|`; what it means is stated by `EmptyWorkspaceName`, `WorkspaceNameRoundTrip` and `WorkspaceNameUnmapped` |
| Hyprland.ClientsOnAppend | src/wm/hyprland.rs:22 | The join keeps the client list's order |
| Hyprland.EmptyWorkspaceName | src/wm/hyprland.rs:32 | A workspace without clients gets the empty name |
| Hyprland.WorkspaceNameRoundTrip | src/wm/hyprland.rs:22-32 | For a workspace with at least one client, none of whose symbols contains `\|`, the name splits back into the clients' symbols in list order, with no prefix and no reversal |
| Hyprland.WorkspaceNameUnmapped | src/wm/hyprland.rs:24-32 | For a workspace with at least one client, when none of its classes is mapped or contains `\|`, the name splits back into the raw window classes in client-list order |
| Hyprland.WorkspaceNameAmbiguous | src/wm/hyprland.rs:32 | `\|` is not escaped: one client of class `a\|b` and two clients `a`, `b` give the same name `a\|b` |
| Hyprland.Plan | src/wm/hyprland.rs:21-35 | One rename per workspace, in workspace order, with that workspace's computed name |
| Hyprland.DispatchAll | src/wm/hyprland.rs:34 | The sent dispatches are a prefix of the plan; all but the last were accepted; the run fails iff some dispatch is rejected, on the first rejected one |
| Hyprland.Update | src/wm/hyprland.rs:16-37 | A failing workspace or client query sends nothing; otherwise the renames go out in order until the first rejected one, and all of them are sent when none is rejected |
| ConfigSearch.JoinPath | src/main.rs:233 | An empty directory gives the relative path alone; otherwise the directory, exactly one `/` (its own trailing `/` counts) and the relative path |
| ConfigSearch.UserConfig | src/main.rs:232-233 | With no config directory, the bare relative path `swayautonames/config.json`; otherwise that path below the directory |
| ConfigSearch.ConfigPaths | src/main.rs:231-245 | The explicit path first when given, then `./config.json`, `<config dir>/swayautonames/config.json` and `/etc/swayautonames/config.json`; length 4 or 3 |
| ConfigSearch.FindFirst | src/main.rs:253-259 | None iff no candidate exists; otherwise the first existing candidate in list order |
| ConfigSearch.GetConfig | src/main.rs:247-263 | An explicit path is returned unchecked; otherwise the first existing fixed candidate, and `None` iff none exists |
| ConfigSearch.GetConfigPrefersEarlier | src/main.rs:240-259 | The local file wins over the user file, which wins over the system-wide file |

## Left out

- Event loops and subscriptions (`SwayNameManager::run`, `HyprlandManager::run`, the listener callbacks): asynchronous IPC plumbing with no naming logic.
- IPC calls (`Connection::new`, `get_tree`, `run_command`, `Workspaces::get`, `Clients::get`, `Dispatch::call`). The tree and the query results are inputs, and the commands and dispatches are returned.
- Sway.UpdateWorkspaceNames: returns every command of the pass. The source panics (`unwrap`) when connecting or the IPC round trip of `run_command` fails (src/wm/sway.rs:118, 121). Sway's answer to each individual command is discarded, so a refused rename neither panics nor stops the pass. A panic ends the task running the pass (the spawned sway task, or the reload loop in `main`). None of this is modelled.
- Hyprland.Update: whether the compositor accepts a dispatch is a function of the dispatch alone. A transient failure that depends on time is outside the model.
- `SwayNameManagerConfig::from_file`: file I/O and YAML parsing. The configuration is modelled only as its `app_symbols` map.
- The inotify reload loop, `tokio::spawn`, the `Arc<RwLock>` sharing, logger set-up and argument parsing: concurrency and I/O.
- `src/manager.rs`: an older copy of the sway event loop with no naming logic.
- The copies of `Autorename`, `HyprlandManager` and the config type in `src/main.rs`: identical to the `src/wm/` modules, modelled once.
- `floating_nodes` and every other `Node` field not read by the walks. Node ids and workspace numbers are unbounded integers; the source only compares and prints them, so their widths do not matter.
- Hyprland workspaces and clients are reduced to the ids and the class the update reads. Query errors are reduced to a message string.
- `PathBuf` is a string, and `Path::join` is simplified to appending with one `/`. `dirs::config_dir()` is a parameter, and a missing directory becomes the empty string as `unwrap_or_default` gives. The `info!` log line in the search is left out.

=== FILE: config_search.dfy ===
/** Choosing the configuration file at start-up (`get_config_paths` and
    `get_config`). The per-user configuration directory and the file-system
    existence test are parameters. */
module ConfigSearch {
  import opened Wrappers

  const LocalConfig: string := "./config.json"
  const UserConfigRelative: string := "swayautonames/config.json"
  const SystemConfig: string := "/etc/swayautonames/config.json"

  /** Appends a relative path to a directory, as `Path::join` does for a
      relative argument: an empty directory leaves the path unchanged, and
      otherwise exactly one `/` separates the two, the directory's own
      trailing `/` included. */
  function JoinPath(dir: string, rel: string): (r: string)
    ensures |dir| == 0 ==> r == rel
    ensures |dir| > 0 && dir[|dir| - 1] == '/' ==> |r| == |dir| + |rel|
    ensures |dir| > 0 && dir[|dir| - 1] != '/' ==> |r| == |dir| + 1 + |rel|
    ensures |dir| > 0 ==> r[..|dir|] == dir && r[|r| - |rel|..] == rel && r[|r| - |rel| - 1] == '/'
  {
    if |dir| == 0 then rel
    else if dir[|dir| - 1] == '/' then dir + rel
    else dir + "/" + rel
  }

  /** `dirs::config_dir().unwrap_or_default().join("swayautonames/config.json")`:
      the relative path alone when there is no (or an empty) directory,
      otherwise below that directory. */
  function UserConfig(configDir: Option<string>): (r: string)
    ensures configDir.None? ==> r == UserConfigRelative
    ensures |r| >= |configDir.GetOr("")| + |UserConfigRelative|
    ensures configDir.Some? && |configDir.value| > 0 ==>
      r[..|configDir.value|] == configDir.value && r[|r| - |UserConfigRelative|..] == UserConfigRelative
  {
    JoinPath(configDir.GetOr(""), UserConfigRelative)
  }

  /** `get_config_paths`: the explicit path if any, then the three fixed candidates. */
  function ConfigPaths(additional: Option<string>, configDir: Option<string>): (r: seq<string>)
    ensures |r| == if additional.Some? then 4 else 3
    ensures additional.Some? ==> r[0] == additional.value
    ensures r[|r| - 3..] == [LocalConfig, UserConfig(configDir), SystemConfig]
  {
    var fixed := [LocalConfig, UserConfig(configDir), SystemConfig];
    match additional
    case Some(p) => [p] + fixed
    case None => fixed
  }

  /** `Iterator::find`: the first candidate for which `pathExists` holds. */
  function FindFirst(paths: seq<string>, pathExists: string -> bool): (r: Option<string>)
    ensures r.None? <==> forall i :: 0 <= i < |paths| ==> !pathExists(paths[i])
    ensures r.Some? ==>
      exists i :: 0 <= i < |paths| && paths[i] == r.value && pathExists(paths[i])
        && forall j :: 0 <= j < i ==> !pathExists(paths[j])
  {
    if |paths| == 0 then None
    else if pathExists(paths[0]) then Some(paths[0])
    else
      var r := FindFirst(paths[1..], pathExists);
      if r.Some? then
        var i :| 0 <= i < |paths[1..]| && paths[1..][i] == r.value && pathExists(paths[1..][i])
          && forall j :: 0 <= j < i ==> !pathExists(paths[1..][j]);
        assert paths[i + 1] == r.value;
        r
      else r
  }

  /** `get_config`: an explicit path is taken as is, without checking that
      it exists; otherwise the first existing fixed candidate, if any. */
  function GetConfig(additional: Option<string>, configDir: Option<string>, pathExists: string -> bool): (r: Option<string>)
    ensures additional.Some? ==> r == additional
    ensures additional.None? ==>
      (r.None? <==> !pathExists(LocalConfig) && !pathExists(UserConfig(configDir)) && !pathExists(SystemConfig))
    ensures additional.None? && r.Some? ==>
      var paths := ConfigPaths(None, configDir);
      exists i :: 0 <= i < |paths| && paths[i] == r.value && pathExists(paths[i])
        && forall j :: 0 <= j < i ==> !pathExists(paths[j])
  {
    match additional
    case Some(p) => Some(p)
    case None =>
      var paths := ConfigPaths(None, configDir);
      assert paths == [LocalConfig, UserConfig(configDir), SystemConfig];
      assert paths[0] == LocalConfig && paths[1] == UserConfig(configDir) && paths[2] == SystemConfig;
      FindFirst(paths, pathExists)
  }

  /** Over three candidates, the first existing one is found. */
  lemma FindFirstOfThree(a: string, b: string, c: string, pathExists: string -> bool)
    ensures pathExists(a) ==> FindFirst([a, b, c], pathExists) == Some(a)
    ensures !pathExists(a) && pathExists(b) ==> FindFirst([a, b, c], pathExists) == Some(b)
    ensures !pathExists(a) && !pathExists(b) && pathExists(c) ==> FindFirst([a, b, c], pathExists) == Some(c)
  {
    assert [a, b, c][1..] == [b, c];
    assert [b, c][1..] == [c];
    assert pathExists(c) ==> FindFirst([c], pathExists) == Some(c);
    assert !pathExists(b) ==> FindFirst([b, c], pathExists) == FindFirst([c], pathExists);
  }

  /** The order of the fixed candidates decides: the local file wins over the
      user's, which wins over the system-wide one. */
  lemma GetConfigPrefersEarlier(configDir: Option<string>, pathExists: string -> bool)
    ensures pathExists(LocalConfig) ==> GetConfig(None, configDir, pathExists) == Some(LocalConfig)
    ensures !pathExists(LocalConfig) && pathExists(UserConfig(configDir)) ==>
      GetConfig(None, configDir, pathExists) == Some(UserConfig(configDir))
    ensures !pathExists(LocalConfig) && !pathExists(UserConfig(configDir)) && pathExists(SystemConfig) ==>
      GetConfig(None, configDir, pathExists) == Some(SystemConfig)
  {
    var u := UserConfig(configDir);
    assert GetConfig(None, configDir, pathExists) == FindFirst([LocalConfig, u, SystemConfig], pathExists);
    FindFirstOfThree(LocalConfig, u, SystemConfig, pathExists);
  }
}

=== FILE: hyprland.dfy ===
/** The Hyprland backend's `HyprlandManager::update`: one rename per
    workspace, named after the classes of the clients on it. The two
    queries are inputs, the dispatches are returned in order, and whether
    the compositor accepts a dispatch is the oracle `accepts`. */
module Hyprland {
  import opened Wrappers
  import opened Seqs
  import opened Text
  import opened Naming

  /** `hyprland::data::Workspace`, reduced to its id. */
  datatype Workspace = Workspace(id: int)

  /** `hyprland::data::Client`: its window class and the id of its workspace. */
  datatype Client = Client(windowClass: string, workspaceId: int)

  /** `DispatchType::RenameWorkspace(id, Some(name))`. */
  datatype Dispatch = RenameWorkspace(id: int, name: string)

  /** Why an update stopped early; the `?` propagations of `update`. */
  datatype UpdateError =
    | WorkspacesQueryFailed(reason: string)
    | ClientsQueryFailed(reason: string)
    | DispatchFailed(dispatch: Dispatch)

  /** The dispatches an update sent, the failing one included, and its result. */
  datatype UpdateRun = UpdateRun(sent: seq<Dispatch>, outcome: Outcome<UpdateError>)

  /** The join condition of `update`: the client sits on workspace `id`. */
  function OnWorkspace(id: int): Client -> bool
  {
    (c: Client) => c.workspaceId == id
  }

  /** The clients whose workspace id equals `id`: exactly those of `clients`
      with that id, as an equality join keeps them. */
  function ClientsOn(clients: seq<Client>, id: int): (r: seq<Client>)
    ensures forall c :: c in r <==> c in clients && c.workspaceId == id
  {
    var r := Filter(OnWorkspace(id), clients);
    assert forall c :: c in r <==> c in clients && c.workspaceId == id by {
      forall c
        ensures c in r <==> c in clients && c.workspaceId == id
      {
        FilterMember(OnWorkspace(id), clients, c);
      }
    }
    r
  }

  /** The join keeps the relative order of the client list. */
  lemma ClientsOnAppend(a: seq<Client>, b: seq<Client>, id: int)
    ensures ClientsOn(a + b, id) == ClientsOn(a, id) + ClientsOn(b, id)
  {
    FilterAppend(OnWorkspace(id), a, b);
  }

  function Classes(clients: seq<Client>): (r: seq<string>)
    ensures |r| == |clients|
    ensures forall i :: 0 <= i < |clients| ==> r[i] == clients[i].windowClass
  {
    if |clients| == 0 then [] else [clients[0].windowClass] + Classes(clients[1..])
  }

  /** The name of workspace `id`: its clients' symbols joined by `|`, with no
      number prefix and no reversal. */
  function WorkspaceName(clients: seq<Client>, id: int, symbols: Symbols): string
  {
    Join(MapSymbols(Classes(ClientsOn(clients, id)), symbols), "|")
  }

  /** A workspace without clients gets the empty name. */
  lemma EmptyWorkspaceName(clients: seq<Client>, id: int, symbols: Symbols)
    requires forall i :: 0 <= i < |clients| ==> clients[i].workspaceId != id
    ensures WorkspaceName(clients, id, symbols) == ""
  {
  }

  /** The name splits back into the symbols of the workspace's clients, in
      client-list order, when none of their symbols contains the separator. */
  lemma WorkspaceNameRoundTrip(clients: seq<Client>, id: int, symbols: Symbols)
    requires ClientsOn(clients, id) != []
    requires forall i :: 0 <= i < |clients| && clients[i].workspaceId == id ==>
      '|' !in Symbol(clients[i].windowClass, symbols)
    ensures Split(WorkspaceName(clients, id, symbols), '|') == MapSymbols(Classes(ClientsOn(clients, id)), symbols)
  {
    var on := ClientsOn(clients, id);
    var shown := MapSymbols(Classes(on), symbols);
    forall i | 0 <= i < |shown|
      ensures '|' !in shown[i]
    {
      assert on[i] in on;
      var k :| 0 <= k < |clients| && clients[k] == on[i];
    }
    SplitJoin(shown, '|');
  }

  /** With no class on the workspace mapped, the name splits back into the
      raw window classes of its clients, in client-list order. */
  lemma WorkspaceNameUnmapped(clients: seq<Client>, id: int, symbols: Symbols)
    requires ClientsOn(clients, id) != []
    requires forall i :: 0 <= i < |clients| && clients[i].workspaceId == id ==>
      clients[i].windowClass !in symbols && '|' !in clients[i].windowClass
    ensures Split(WorkspaceName(clients, id, symbols), '|') == Classes(ClientsOn(clients, id))
  {
    var on := ClientsOn(clients, id);
    var classes := Classes(on);
    forall i | 0 <= i < |classes|
      ensures classes[i] !in symbols && '|' !in classes[i]
    {
      assert on[i] in on;
      var k :| 0 <= k < |clients| && clients[k] == on[i];
    }
    MapSymbolsUnmapped(classes, symbols);
    SplitJoin(classes, '|');
  }

  /** The separator is not escaped: one client whose class contains `|`
      gives the same name as two clients. */
  lemma WorkspaceNameAmbiguous()
    ensures [Client("a|b", 1)] != [Client("a", 1), Client("b", 1)]
    ensures WorkspaceName([Client("a|b", 1)], 1, map[]) == WorkspaceName([Client("a", 1), Client("b", 1)], 1, map[]) == "a|b"
  {
    var one := [Client("a|b", 1)];
    var two := [Client("a", 1), Client("b", 1)];
    assert ClientsOn(one, 1) == one by {
      assert Filter(OnWorkspace(1), one[1..]) == [];
    }
    assert ClientsOn(two, 1) == two by {
      assert two[1..][1..] == [];
      assert Filter(OnWorkspace(1), two[1..]) == [Client("b", 1)];
    }
    assert MapSymbols(Classes(one), map[]) == ["a|b"];
    assert MapSymbols(Classes(two), map[]) == ["a", "b"];
    assert Join(["a", "b"], "|") == "a|b";
  }

  /** The rename `update` dispatches for each workspace, in workspace order. */
  function Plan(workspaces: seq<Workspace>, clients: seq<Client>, symbols: Symbols): (r: seq<Dispatch>)
    ensures |r| == |workspaces|
    ensures forall i :: 0 <= i < |workspaces| ==>
      r[i] == RenameWorkspace(workspaces[i].id, WorkspaceName(clients, workspaces[i].id, symbols))
  {
    if |workspaces| == 0 then []
    else
      [RenameWorkspace(workspaces[0].id, WorkspaceName(clients, workspaces[0].id, symbols))]
      + Plan(workspaces[1..], clients, symbols)
  }

  /** Sends `plan` in order, stopping after the first dispatch the compositor
      rejects: what was sent is a prefix of the plan, every dispatch but the
      last was accepted, and the last was rejected exactly when the run failed. */
  function DispatchAll(plan: seq<Dispatch>, accepts: Dispatch -> bool): (r: UpdateRun)
    ensures |r.sent| <= |plan| && r.sent == plan[..|r.sent|]
    ensures forall j :: 0 <= j < |r.sent| - 1 ==> accepts(r.sent[j])
    ensures r.outcome.Pass? <==> forall i :: 0 <= i < |plan| ==> accepts(plan[i])
    ensures r.outcome.Pass? ==> r.sent == plan
    ensures r.outcome.Fail? ==>
      && |r.sent| > 0
      && !accepts(r.sent[|r.sent| - 1])
      && r.outcome == Fail(DispatchFailed(r.sent[|r.sent| - 1]))
  {
    if |plan| == 0 then UpdateRun([], Pass)
    else if !accepts(plan[0]) then UpdateRun([plan[0]], Fail(DispatchFailed(plan[0])))
    else
      var tail := DispatchAll(plan[1..], accepts);
      assert [plan[0]] + plan[1..][..|tail.sent|] == plan[..|tail.sent| + 1];
      UpdateRun([plan[0]] + tail.sent, tail.outcome)
  }

  /** `HyprlandManager::update`: query the workspaces, then the clients, and
      dispatch one rename per workspace; any failure ends the update. */
  function Update(
    workspaces: Result<seq<Workspace>, string>,
    clients: Result<seq<Client>, string>,
    symbols: Symbols,
    accepts: Dispatch -> bool): (r: UpdateRun)
    ensures workspaces.Err? ==> r == UpdateRun([], Fail(WorkspacesQueryFailed(workspaces.error)))
    ensures workspaces.Ok? && clients.Err? ==> r == UpdateRun([], Fail(ClientsQueryFailed(clients.error)))
    ensures workspaces.Ok? && clients.Ok? ==>
      var plan := Plan(workspaces.value, clients.value, symbols);
      && |r.sent| <= |plan|
      && r.sent == plan[..|r.sent|]
      && (r.outcome.Pass? <==> forall i :: 0 <= i < |plan| ==> accepts(plan[i]))
      && (r.outcome.Pass? ==> |r.sent| == |workspaces.value|)
      && (forall j :: 0 <= j < |r.sent| - 1 ==> accepts(r.sent[j]))
      && (r.outcome.Fail? ==>
            && |r.sent| > 0
            && !accepts(r.sent[|r.sent| - 1])
            && r.outcome == Fail(DispatchFailed(r.sent[|r.sent| - 1])))
  {
    match workspaces
    case Err(e) => UpdateRun([], Fail(WorkspacesQueryFailed(e)))
    case Ok(ws) =>
      match clients
      case Err(e) => UpdateRun([], Fail(ClientsQueryFailed(e)))
      case Ok(cs) => DispatchAll(Plan(ws, cs, symbols), accepts)
  }
}

=== FILE: naming.dfy ===
/** The symbol substitution shared by both window-manager backends: every
    application identifier is looked up in the configured `app_symbols`
    table and passes through unchanged when it has no entry. */
module Naming {
  import opened Seqs

  /** `SwayNameManagerConfig::app_symbols`; the whole configuration as far as naming is concerned. */
  type Symbols = map<string, string>

  /** The symbol for one application identifier, falling back to the identifier itself. */
  function Symbol(name: string, symbols: Symbols): string
  {
    if name in symbols then symbols[name] else name
  }

  /** Maps every identifier through `Symbol`, keeping order and length. */
  function MapSymbols(names: seq<string>, symbols: Symbols): (r: seq<string>)
    ensures |r| == |names|
    ensures forall i :: 0 <= i < |names| ==> r[i] == Symbol(names[i], symbols)
  {
    if |names| == 0 then [] else [Symbol(names[0], symbols)] + MapSymbols(names[1..], symbols)
  }

  /** With no mapped identifier among `names`, the mapped list is `names` itself. */
  lemma MapSymbolsUnmapped(names: seq<string>, symbols: Symbols)
    requires forall i :: 0 <= i < |names| ==> names[i] !in symbols
    ensures MapSymbols(names, symbols) == names
  {
  }

  /** Mapping is element-wise, so it commutes with reversal. */
  lemma MapSymbolsReverse(names: seq<string>, symbols: Symbols)
    ensures Reverse(MapSymbols(names, symbols)) == MapSymbols(Reverse(names), symbols)
  {
  }
}

=== FILE: seqs.dfy ===
/** Generic sequence functions (reversal, flat-map, filter) and the facts
    about them that the naming model relies on. */
module Seqs {

  /** `Iterator::rev` collected into a vector. */
  function Reverse<T>(s: seq<T>): (r: seq<T>)
    ensures |r| == |s|
    ensures forall i :: 0 <= i < |s| ==> r[i] == s[|s| - 1 - i]
  {
    if |s| == 0 then [] else Reverse(s[1..]) + [s[0]]
  }

  lemma ReverseAppend<T>(a: seq<T>, b: seq<T>)
    ensures Reverse(a + b) == Reverse(b) + Reverse(a)
  {
  }

  /** Concatenation of `f(x)` over `s`, left to right. */
  function FlatMap<T, U>(f: T -> seq<U>, s: seq<T>): seq<U>
  {
    if |s| == 0 then [] else f(s[0]) + FlatMap(f, s[1..])
  }

  lemma {:induction false} FlatMapAppend<T, U>(f: T -> seq<U>, a: seq<T>, b: seq<T>)
    ensures FlatMap(f, a + b) == FlatMap(f, a) + FlatMap(f, b)
    decreases |a|
  {
    if |a| == 0 {
      assert a + b == b;
    } else {
      assert (a + b)[1..] == a[1..] + b;
      FlatMapAppend(f, a[1..], b);
    }
  }

  /** A flat-map is empty exactly when every element maps to nothing. */
  lemma {:induction false} FlatMapEmpty<T, U>(f: T -> seq<U>, s: seq<T>)
    ensures FlatMap(f, s) == [] <==> forall x :: x in s ==> f(x) == []
    decreases |s|
  {
    if |s| > 0 {
      FlatMapEmpty(f, s[1..]);
      assert forall x :: x in s <==> x == s[0] || x in s[1..];
    }
  }

  /** Membership in a flat-map: some element produced it. */
  lemma {:induction false} FlatMapMember<T, U>(f: T -> seq<U>, s: seq<T>, y: U)
    ensures y in FlatMap(f, s) <==> exists x :: x in s && y in f(x)
    decreases |s|
  {
    if |s| > 0 {
      FlatMapMember(f, s[1..], y);
      assert forall x :: x in s <==> x == s[0] || x in s[1..];
    }
  }

  /** When `f` yields at most one element, reversing commutes with the flat-map. */
  lemma {:induction false} FlatMapReverse<T, U>(f: T -> seq<U>, s: seq<T>)
    requires forall x :: x in s ==> |f(x)| <= 1
    ensures Reverse(FlatMap(f, s)) == FlatMap(f, Reverse(s))
    decreases |s|
  {
    if |s| > 0 {
      FlatMapReverse(f, s[1..]);
      assert Reverse(f(s[0])) == f(s[0]);
      ReverseAppend(f(s[0]), FlatMap(f, s[1..]));
      FlatMapAppend(f, Reverse(s[1..]), [s[0]]);
    }
  }

  /** `Iterator::filter` collected into a vector. */
  function Filter<T>(p: T -> bool, s: seq<T>): (r: seq<T>)
    ensures |r| <= |s|
  {
    if |s| == 0 then []
    else if p(s[0]) then [s[0]] + Filter(p, s[1..])
    else Filter(p, s[1..])
  }

  /** Filtering keeps exactly the elements satisfying `p`. */
  lemma {:induction false} FilterMember<T>(p: T -> bool, s: seq<T>, x: T)
    ensures x in Filter(p, s) <==> x in s && p(x)
    decreases |s|
  {
    if |s| > 0 {
      FilterMember(p, s[1..], x);
      assert x in s <==> x == s[0] || x in s[1..];
    }
  }

  lemma {:induction false} FilterEmpty<T>(p: T -> bool, s: seq<T>)
    ensures Filter(p, s) == [] <==> forall j :: 0 <= j < |s| ==> !p(s[j])
    decreases |s|
  {
    if |s| > 0 {
      FilterEmpty(p, s[1..]);
      assert forall j :: 1 <= j < |s| ==> s[j] == s[1..][j - 1];
    }
  }

  /** Filtering keeps the relative order: it distributes over concatenation. */
  lemma {:induction false} FilterAppend<T>(p: T -> bool, a: seq<T>, b: seq<T>)
    ensures Filter(p, a + b) == Filter(p, a) + Filter(p, b)
    decreases |a|
  {
    if |a| == 0 {
      assert a + b == b;
    } else {
      assert (a + b)[1..] == a[1..] + b;
      FilterAppend(p, a[1..], b);
    }
  }

  /** A flat-map whose every element yields at most one value, and nothing
      where `p` fails, is no longer than the filter by `p`. */
  lemma {:induction false} FlatMapBoundedByFilter<T, U>(f: T -> seq<U>, p: T -> bool, s: seq<T>)
    requires forall x :: x in s ==> |f(x)| <= (if p(x) then 1 else 0)
    ensures |FlatMap(f, s)| <= |Filter(p, s)|
    decreases |s|
  {
    if |s| > 0 {
      FlatMapBoundedByFilter(f, p, s[1..]);
    }
  }

  /** A filter has exactly one element when exactly one index satisfies `p`. */
  ghost predicate UniqueIndex<T>(p: T -> bool, s: seq<T>, i: int)
  {
    && 0 <= i < |s|
    && p(s[i])
    && forall j :: 0 <= j < |s| && j != i ==> !p(s[j])
  }

  lemma {:induction false} FilterSingleton<T>(p: T -> bool, s: seq<T>)
    ensures |Filter(p, s)| == 1 <==> exists i :: UniqueIndex(p, s, i)
    ensures forall i :: UniqueIndex(p, s, i) ==> Filter(p, s) == [s[i]]
    decreases |s|
  {
    if |s| > 0 {
      FilterSingleton(p, s[1..]);
      var t := s[1..];
      forall i | UniqueIndex(p, s, i)
        ensures Filter(p, s) == [s[i]]
      {
        if i == 0 {
          FilterEmpty(p, t);
        } else {
          assert UniqueIndex(p, t, i - 1);
        }
      }
      if |Filter(p, s)| == 1 {
        if p(s[0]) {
          FilterEmpty(p, t);
          assert UniqueIndex(p, s, 0);
        } else {
          var k :| UniqueIndex(p, t, k);
          assert UniqueIndex(p, s, k + 1);
        }
      }
    }
  }
}

=== FILE: sway.dfy ===
/** The sway backend's `Autorename` logic over a container tree: the
    containment test, the workspace and window-name walks, the workspace
    label, and the rename commands one update pass sends. The IPC
    connection is replaced by returning the command texts in send order. */
module Sway {
  import opened Wrappers
  import opened Seqs
  import opened Text
  import opened Naming
  import opened SwayTree

  // ---------------------------------------------------------------------
  // contains

  /** `Node::contains`: `n` or one of its tiling descendants has the id of `target`. */
  predicate Contains(n: Node, target: Node)
    decreases n
  {
    n.id == target.id || exists c :: c in n.nodes && Contains(c, target)
  }

  lemma ContainsSelf(n: Node)
    ensures Contains(n, n)
  {
  }

  /** A node's walk output lists exactly its own subtree. */
  lemma AllNodesMember(n: Node, x: Node)
    ensures x in AllNodes(n) <==> x == n || exists c :: c in n.nodes && x in AllNodes(c)
  {
    CollectStackMember(n.nodes, Single, Always, x);
  }

  /** Containment is "some node of the subtree, the root included, carries the target's id". */
  lemma {:induction false} ContainsIffIdInSubtree(n: Node, target: Node)
    ensures Contains(n, target) <==> exists x :: x in AllNodes(n) && x.id == target.id
    decreases n
  {
    forall c | c in n.nodes
      ensures Contains(c, target) <==> exists x :: x in AllNodes(c) && x.id == target.id
    {
      ContainsIffIdInSubtree(c, target);
    }
    forall x
      ensures x in AllNodes(n) <==> x == n || exists c :: c in n.nodes && x in AllNodes(c)
    {
      AllNodesMember(n, x);
    }
  }

  // ---------------------------------------------------------------------
  // get_workspace_nodes

  function WorkspaceEmit(n: Node): seq<Node>
  {
    if n.nodeType == Workspace then [n] else []
  }

  predicate NotWorkspace(n: Node)
  {
    n.nodeType != Workspace
  }

  /** `Node::get_workspace_nodes`, in pop order. */
  function WorkspaceNodes(root: Node): seq<Node>
  {
    Collect(root, WorkspaceEmit, NotWorkspace)
  }

  /** `w` is a workspace reached from `n` through non-workspace nodes only:
      the walk stops at a workspace and opens every other node. */
  ghost predicate Exposed(n: Node, w: Node)
    decreases n
  {
    if n.nodeType == Workspace then w == n else exists c :: c in n.nodes && Exposed(c, w)
  }

  /** The walk returns exactly the exposed workspaces, and only workspaces. */
  lemma {:induction false} WorkspaceNodesExposed(n: Node, w: Node)
    ensures w in WorkspaceNodes(n) <==> Exposed(n, w)
    ensures w in WorkspaceNodes(n) ==> w.nodeType == Workspace
    decreases n
  {
    if n.nodeType != Workspace {
      CollectStackMember(n.nodes, WorkspaceEmit, NotWorkspace, w);
      forall c | c in n.nodes
        ensures w in WorkspaceNodes(c) <==> Exposed(c, w)
        ensures w in WorkspaceNodes(c) ==> w.nodeType == Workspace
      {
        WorkspaceNodesExposed(c, w);
      }
    }
  }

  /** The explicit-stack `get_workspace_nodes`. */
  method GetWorkspaceNodes(root: Node) returns (workspaces: seq<Node>)
    ensures workspaces == WorkspaceNodes(root)
    ensures forall w :: w in workspaces <==> Exposed(root, w)
    ensures forall i :: 0 <= i < |workspaces| ==> workspaces[i].nodeType == Workspace
  {
    workspaces := StackWalk(root, WorkspaceEmit, NotWorkspace);
    forall w
      ensures w in workspaces <==> Exposed(root, w)
      ensures w in workspaces ==> w.nodeType == Workspace
    {
      WorkspaceNodesExposed(root, w);
    }
  }

  // ---------------------------------------------------------------------
  // get_workspace

  /** `get_workspace`'s only error, whose text reads "Window is on multiple
      workspaces!" although it is also returned when no workspace holds the node. */
  datatype WorkspaceError = NotOnExactlyOneWorkspace

  /** Index `i` is the one and only workspace of `workspaces` containing `node`. */
  ghost predicate OnlyContaining(workspaces: seq<Node>, node: Node, i: int)
  {
    && 0 <= i < |workspaces|
    && Contains(workspaces[i], node)
    && forall j :: 0 <= j < |workspaces| && j != i ==> !Contains(workspaces[j], node)
  }

  /** `Node::get_workspace`: the single workspace whose subtree contains `node`. */
  function GetWorkspace(root: Node, node: Node): (r: Result<Node, WorkspaceError>)
    ensures r.Ok? <==> exists i :: OnlyContaining(WorkspaceNodes(root), node, i)
    ensures forall i :: OnlyContaining(WorkspaceNodes(root), node, i) ==> r == Ok(WorkspaceNodes(root)[i])
    ensures r.Err? ==>
      || (forall i :: 0 <= i < |WorkspaceNodes(root)| ==> !Contains(WorkspaceNodes(root)[i], node))
      || (exists i, j :: 0 <= i < j < |WorkspaceNodes(root)|
            && Contains(WorkspaceNodes(root)[i], node) && Contains(WorkspaceNodes(root)[j], node))
  {
    var workspaces := WorkspaceNodes(root);
    var holds := w => Contains(w, node);
    var matching := Filter(holds, workspaces);
    FilterSingleton(holds, workspaces);
    assert forall i :: OnlyContaining(workspaces, node, i) <==> UniqueIndex(holds, workspaces, i);
    if |matching| == 1 then Ok(matching[0]) else Err(NotOnExactlyOneWorkspace)
  }

  // ---------------------------------------------------------------------
  // get_window_names

  /** The name a node contributes: for a `Con`, its `app_id`, else the X11
      instance from `window_properties`; nothing otherwise. */
  function WindowName(n: Node): Option<string>
  {
    if n.nodeType != Con then None
    else if n.appId.Some? then n.appId
    else match n.windowProperties
      case Some(props) => props.instance
      case None => None
  }

  function WindowNameEmit(n: Node): seq<string>
  {
    match WindowName(n)
    case Some(name) => [name]
    case None => []
  }

  predicate IsCon(n: Node)
  {
    n.nodeType == Con
  }

  /** `Node::get_window_names`, in pop order. */
  function WindowNames(n: Node): seq<string>
  {
    Collect(n, WindowNameEmit, Always)
  }

  /** Every name comes from a `Con` of the subtree, from its `app_id` or, when
      that is absent, from its instance; and every such `Con` gives its name. */
  lemma WindowNamesSource(n: Node, name: string)
    ensures name in WindowNames(n) <==>
      exists x :: x in AllNodes(n) && x.nodeType == Con &&
        (x.appId == Some(name) ||
         (x.appId.None? && x.windowProperties.Some? && x.windowProperties.value.instance == Some(name)))
  {
    CollectIsFlatMap(n, WindowNameEmit);
    FlatMapMember(WindowNameEmit, AllNodes(n), name);
  }

  /** At most one name per `Con` node of the subtree. */
  lemma WindowNamesBound(n: Node)
    ensures |WindowNames(n)| <= |Filter(IsCon, AllNodes(n))|
  {
    CollectIsFlatMap(n, WindowNameEmit);
    FlatMapBoundedByFilter(WindowNameEmit, IsCon, AllNodes(n));
  }

  /** The explicit-stack `get_window_names`. */
  method GetWindowNames(n: Node) returns (names: seq<string>)
    ensures names == WindowNames(n)
    ensures |names| <= |Filter(IsCon, AllNodes(n))|
  {
    names := StackWalk(n, WindowNameEmit, Always);
    WindowNamesBound(n);
  }

  /** A node all of whose children are leaves. */
  ghost predicate LeafChildren(n: Node)
  {
    forall i :: 0 <= i < |n.nodes| ==> n.nodes[i].nodes == []
  }

  lemma {:induction false} PostOrderOfLeaves(children: seq<Node>)
    requires forall i :: 0 <= i < |children| ==> children[i].nodes == []
    ensures PostOrderForest(children) == children
    decreases |children|
  {
    if |children| > 0 {
      assert PostOrderForest(children[0].nodes) == [];
      PostOrderOfLeaves(children[1..]);
      assert children == [children[0]] + children[1..];
    }
  }

  /** For a non-window node whose children are all leaves, the reversed
      window names follow the children left to right. */
  lemma LeafWindowsInChildOrder(n: Node)
    requires n.nodeType != Con
    requires LeafChildren(n)
    ensures Reverse(WindowNames(n)) == FlatMap(WindowNameEmit, n.nodes)
  {
    CollectIsFlatMap(n, WindowNameEmit);
    FlatMapReverse(WindowNameEmit, AllNodes(n));
    AllNodesReversed(n);
    PostOrderOfLeaves(n.nodes);
    FlatMapAppend(WindowNameEmit, n.nodes, [n]);
  }

  // ---------------------------------------------------------------------
  // the workspace label

  /** The label text for workspace `num` showing `shown`: the bare number when
      nothing is shown, otherwise `"<num>: "` and the symbols joined by `|`. */
  function FormatLabel(num: int, shown: seq<string>): string
  {
    if |shown| == 0 then Decimal(num) else Decimal(num) + ": " + Join(shown, "|")
  }

  /** The label of workspace `num` holding windows `names` (in pop order):
      each name mapped to its symbol, the list reversed, then formatted. */
  function Label(num: int, names: seq<string>, symbols: Symbols): string
  {
    FormatLabel(num, Reverse(MapSymbols(names, symbols)))
  }

  /** What a label says: the workspace number and the shown symbols. */
  datatype LabelParts = LabelParts(num: int, shown: seq<string>)

  /** Reads a label back: a bare number, or a number, `": "` and `|`-separated symbols. */
  function ParseLabel(text: string): Option<LabelParts>
  {
    match IndexOf(text, ':')
    case None =>
      (match ParseDecimal(text)
       case Some(v) => Some(LabelParts(v, []))
       case None => None)
    case Some(i) =>
      if i + 1 < |text| && text[i + 1] == ' ' then
        match ParseDecimal(text[..i])
        case Some(v) => Some(LabelParts(v, Split(text[i + 2..], '|')))
        case None => None
      else None
  }

  /** Formatting is undone by parsing when no shown symbol contains the separator. */
  lemma ParseFormatLabel(num: int, shown: seq<string>)
    requires forall i :: 0 <= i < |shown| ==> '|' !in shown[i]
    ensures ParseLabel(FormatLabel(num, shown)) == Some(LabelParts(num, shown))
  {
    var d := Decimal(num);
    DecimalRoundTrip(num);
    DecimalHasNoColon(num);
    if |shown| > 0 {
      var rest := " " + Join(shown, "|");
      var text := d + [':'] + rest;
      assert FormatLabel(num, shown) == text;
      IndexOfAfterPrefix(d, ':', rest);
      assert text[..|d|] == d;
      assert text[|d| + 2..] == Join(shown, "|");
      SplitJoin(shown, '|');
    }
  }

  /** The label determines the workspace number and the reversed symbol list,
      as long as no symbol contains the separator. */
  lemma LabelRoundTrip(num: int, names: seq<string>, symbols: Symbols)
    requires forall i :: 0 <= i < |names| ==> '|' !in Symbol(names[i], symbols)
    ensures ParseLabel(Label(num, names, symbols)) == Some(LabelParts(num, Reverse(MapSymbols(names, symbols))))
  {
    ParseFormatLabel(num, Reverse(MapSymbols(names, symbols)));
  }

  /** With none of the windows mapped, the label shows the raw
      identifiers themselves, in reverse pop order. */
  lemma LabelUnmapped(num: int, names: seq<string>, symbols: Symbols)
    requires forall i :: 0 <= i < |names| ==> names[i] !in symbols && '|' !in names[i]
    ensures ParseLabel(Label(num, names, symbols)) == Some(LabelParts(num, Reverse(names)))
  {
    MapSymbolsUnmapped(names, symbols);
    LabelRoundTrip(num, names, symbols);
  }

  /** The separator is not escaped: a window name containing `|` gives the
      same label as two windows, so the label alone does not determine the
      windows. */
  lemma LabelAmbiguous()
    ensures ["a|b"] != ["b", "a"]
    ensures Label(1, ["a|b"], map[]) == Label(1, ["b", "a"], map[]) == "1: a|b"
  {
    assert Decimal(1) == "1";
    assert MapSymbols(["a|b"], map[]) == ["a|b"];
    assert MapSymbols(["b", "a"], map[]) == ["b", "a"];
    assert Reverse(["b", "a"]) == ["a", "b"];
    assert Join(["a", "b"], "|") == "a|b";
  }

  /** Examples of the label: windows popped as `firefox` then `kitty` are
      shown in reverse order... */
  lemma LabelExampleReversed()
    ensures Label(3, ["firefox", "kitty"], map[]) == "3: kitty|firefox"
  {
    assert Decimal(3) == "3";
    assert MapSymbols(["firefox", "kitty"], map[]) == ["firefox", "kitty"];
    assert Reverse(["firefox", "kitty"]) == ["kitty", "firefox"];
    assert Join(["kitty", "firefox"], "|") == "kitty|firefox";
  }

  /** ...an empty workspace shows its bare number... */
  lemma LabelExampleEmpty()
    ensures Label(5, [], map[]) == "5"
  {
    assert Decimal(5) == "5";
  }

  /** ...and a mapped identifier shows its symbol. */
  lemma LabelExampleMapped()
    ensures Label(1, ["kitty", "firefox"], map["firefox" := "\U{1F310}"]) == "1: \U{1F310}|kitty"
  {
    assert Decimal(1) == "1";
    var globe := map["firefox" := "\U{1F310}"];
    assert MapSymbols(["kitty", "firefox"], globe) == ["kitty", "\U{1F310}"];
    assert Reverse(["kitty", "\U{1F310}"]) == ["\U{1F310}", "kitty"];
    assert Join(["\U{1F310}", "kitty"], "|") == "\U{1F310}|kitty";
  }

  /** For a workspace whose children are leaf windows, the label lists the
      children's symbols in child order, or only the number when there are none. */
  lemma LeafWorkspaceLabel(w: Node, num: int, symbols: Symbols)
    requires w.nodeType == Workspace
    requires LeafChildren(w)
    ensures Label(num, WindowNames(w), symbols)
      == FormatLabel(num, MapSymbols(FlatMap(WindowNameEmit, w.nodes), symbols))
    ensures FlatMap(WindowNameEmit, w.nodes) == [] ==> Label(num, WindowNames(w), symbols) == Decimal(num)
    ensures FlatMap(WindowNameEmit, w.nodes) != [] ==>
      Label(num, WindowNames(w), symbols) == Decimal(num) + ": " + Join(MapSymbols(FlatMap(WindowNameEmit, w.nodes), symbols), "|")
  {
    LeafWindowsInChildOrder(w);
    MapSymbolsReverse(WindowNames(w), symbols);
  }

  // ---------------------------------------------------------------------
  // the rename command

  const CommandHead: string := "rename workspace \""
  const CommandMiddle: string := "\" to \""

  /** The sway command text, `rename workspace "<from>" to "<to>"`, with no escaping. */
  function RenameCommand(from: string, to: string): string
  {
    CommandHead + (from + (CommandMiddle + (to + "\"")))
  }

  datatype Rename = Rename(from: string, to: string)

  /** Reads a rename command back, taking the old name up to the first quote. */
  function ParseRenameCommand(cmd: string): Option<Rename>
  {
    if |cmd| < |CommandHead| || cmd[..|CommandHead|] != CommandHead then None
    else ParseRenameBody(cmd[|CommandHead|..])
  }

  /** Reads `<from>" to "<to>"`, the command after its fixed head. */
  function ParseRenameBody(body: string): Option<Rename>
  {
    match IndexOf(body, '"')
    case None => None
    case Some(i) =>
      var tail := body[i..];
      if |tail| >= |CommandMiddle| + 1 && tail[..|CommandMiddle|] == CommandMiddle && tail[|tail| - 1] == '"'
      then Some(Rename(body[..i], tail[|CommandMiddle|..|tail| - 1]))
      else None
  }

  lemma SliceConcat(a: string, b: string)
    ensures (a + b)[..|a|] == a
    ensures (a + b)[|a|..] == b
  {
  }

  lemma ParseRenameHead(body: string)
    ensures ParseRenameCommand(CommandHead + body) == ParseRenameBody(body)
  {
    SliceConcat(CommandHead, body);
  }

  lemma MiddleParts(to: string)
    ensures var tail := CommandMiddle + (to + "\"");
      && |tail| >= |CommandMiddle| + 1
      && tail[..|CommandMiddle|] == CommandMiddle
      && tail[|tail| - 1] == '"'
      && tail[|CommandMiddle|..|tail| - 1] == to
  {
    var closing := to + "\"";
    SliceConcat(CommandMiddle, closing);
    var tail := CommandMiddle + closing;
    assert tail[|CommandMiddle|..|tail| - 1] == closing[..|closing| - 1];
  }

  lemma ParseRenameSplit(from: string, tail: string)
    requires '"' !in from
    requires |tail| >= |CommandMiddle| + 1
    requires tail[..|CommandMiddle|] == CommandMiddle && tail[|tail| - 1] == '"'
    ensures ParseRenameBody(from + tail) == Some(Rename(from, tail[|CommandMiddle|..|tail| - 1]))
  {
    assert tail[0] == '"' by {
      assert tail[0] == tail[..|CommandMiddle|][0];
    }
    IndexOfAtQuote(from, tail, '"');
    SliceConcat(from, tail);
  }

  lemma ParseRenameTail(from: string, to: string)
    requires '"' !in from
    ensures ParseRenameBody(from + (CommandMiddle + (to + "\""))) == Some(Rename(from, to))
  {
    MiddleParts(to);
    ParseRenameSplit(from, CommandMiddle + (to + "\""));
  }

  /** A command whose old name has no quote can be read back unambiguously. */
  lemma RenameCommandRoundTrip(from: string, to: string)
    requires '"' !in from
    ensures ParseRenameCommand(RenameCommand(from, to)) == Some(Rename(from, to))
  {
    ParseRenameHead(from + (CommandMiddle + (to + "\"")));
    ParseRenameTail(from, to);
  }

  /** Quotes are not escaped: two different renames can produce the same text. */
  lemma RenameCommandUnescaped()
    ensures RenameCommand("a\" to \"b", "c") == RenameCommand("a", "b\" to \"c")
  {
  }

  // ---------------------------------------------------------------------
  // update_workspace_names

  /** Only workspaces with a number are renamed; the scratchpad has none. */
  predicate Numbered(n: Node)
  {
    n.nodeType == Workspace && n.num.Some?
  }

  /** The label computed for a numbered workspace from its subtree. */
  function NewName(w: Node, symbols: Symbols): string
    requires Numbered(w)
  {
    Label(w.num.value, WindowNames(w), symbols)
  }

  /** The current name, the empty string when sway reports none. */
  function OldName(w: Node): string
  {
    w.name.GetOr("")
  }

  /** The command, if any, that the pass sends for one popped node. */
  function WorkspaceCommand(symbols: Symbols, n: Node): seq<string>
  {
    if Numbered(n) && NewName(n, symbols) != OldName(n)
    then [RenameCommand(OldName(n), NewName(n, symbols))]
    else []
  }

  function CommandEmitter(symbols: Symbols): Node -> seq<string>
  {
    n => WorkspaceCommand(symbols, n)
  }

  /** The commands one `update_workspace_names` pass sends, in send order. */
  function RenameCommands(root: Node, symbols: Symbols): seq<string>
  {
    Collect(root, CommandEmitter(symbols), Always)
  }

  /** The pass visits the nodes in pop order and sends, for each, the
      command that node alone calls for. */
  lemma RenameCommandsInPopOrder(root: Node, symbols: Symbols)
    ensures RenameCommands(root, symbols) == FlatMap(CommandEmitter(symbols), AllNodes(root))
  {
    CollectIsFlatMap(root, CommandEmitter(symbols));
  }

  /** A command is sent for exactly the numbered workspaces of the tree whose
      computed label differs from their current name, with exactly that text. */
  lemma RenameCommandsSpec(root: Node, symbols: Symbols, cmd: string)
    ensures cmd in RenameCommands(root, symbols) <==>
      exists w :: w in AllNodes(root) && Numbered(w) && NewName(w, symbols) != OldName(w)
        && cmd == RenameCommand(OldName(w), NewName(w, symbols))
  {
    RenameCommandsInPopOrder(root, symbols);
    FlatMapMember(CommandEmitter(symbols), AllNodes(root), cmd);
  }

  /** At most one command per numbered workspace. */
  lemma RenameCommandsBound(root: Node, symbols: Symbols)
    ensures |RenameCommands(root, symbols)| <= |Filter(Numbered, AllNodes(root))|
  {
    CollectIsFlatMap(root, CommandEmitter(symbols));
    FlatMapBoundedByFilter(CommandEmitter(symbols), Numbered, AllNodes(root));
  }

  /** When every numbered workspace already carries its computed label, the
      pass sends nothing. */
  lemma NoCommandsWhenNamed(root: Node, symbols: Symbols)
    requires forall w :: w in AllNodes(root) && Numbered(w) ==> w.name == Some(NewName(w, symbols))
    ensures RenameCommands(root, symbols) == []
  {
    CollectIsFlatMap(root, CommandEmitter(symbols));
    FlatMapEmpty(CommandEmitter(symbols), AllNodes(root));
  }

  /** The explicit-stack `update_workspace_names`, returning the commands it
      would send over IPC. */
  method UpdateWorkspaceNames(root: Node, symbols: Symbols) returns (commands: seq<string>)
    ensures commands == RenameCommands(root, symbols)
    ensures forall cmd :: cmd in commands <==>
      exists w :: w in AllNodes(root) && Numbered(w) && NewName(w, symbols) != OldName(w)
        && cmd == RenameCommand(OldName(w), NewName(w, symbols))
  {
    commands := StackWalk(root, CommandEmitter(symbols), Always);
    forall cmd
      ensures cmd in commands <==>
        exists w :: w in AllNodes(root) && Numbered(w) && NewName(w, symbols) != OldName(w)
          && cmd == RenameCommand(OldName(w), NewName(w, symbols))
    {
      RenameCommandsSpec(root, symbols, cmd);
    }
  }

  // ---------------------------------------------------------------------
  // idempotence: the tree after every rename has been applied

  /** The tree with every numbered workspace renamed to its computed label. */
  function ApplyNames(n: Node, symbols: Symbols): Node
    decreases n
  {
    var children := ApplyNamesForest(n.nodes, symbols);
    if Numbered(n) then n.(name := Some(NewName(n, symbols)), nodes := children)
    else n.(nodes := children)
  }

  function ApplyNamesForest(stack: seq<Node>, symbols: Symbols): (r: seq<Node>)
    ensures |r| == |stack|
    decreases stack
  {
    if |stack| == 0 then []
    else ApplyNamesForest(stack[..|stack| - 1], symbols) + [ApplyNames(stack[|stack| - 1], symbols)]
  }

  /** Renaming workspaces does not change any window name. */
  lemma {:induction false} ApplyNamesKeepsWindowNames(n: Node, symbols: Symbols)
    ensures WindowNames(ApplyNames(n, symbols)) == WindowNames(n)
    decreases n, 1
  {
    var m := ApplyNames(n, symbols);
    assert m.nodes == ApplyNamesForest(n.nodes, symbols);
    assert WindowName(m) == WindowName(n);
    ApplyNamesKeepsWindowNamesForest(n.nodes, symbols);
  }

  lemma {:induction false} ApplyNamesKeepsWindowNamesForest(stack: seq<Node>, symbols: Symbols)
    ensures CollectStack(ApplyNamesForest(stack, symbols), WindowNameEmit, Always)
         == CollectStack(stack, WindowNameEmit, Always)
    decreases stack, 0
  {
    if |stack| > 0 {
      var renamed := ApplyNamesForest(stack, symbols);
      assert renamed[|renamed| - 1] == ApplyNames(stack[|stack| - 1], symbols);
      assert renamed[..|renamed| - 1] == ApplyNamesForest(stack[..|stack| - 1], symbols);
      ApplyNamesKeepsWindowNames(stack[|stack| - 1], symbols);
      ApplyNamesKeepsWindowNamesForest(stack[..|stack| - 1], symbols);
    }
  }

  /** A second pass over the renamed tree sends no command. */
  lemma {:induction false} RenameIdempotent(n: Node, symbols: Symbols)
    ensures RenameCommands(ApplyNames(n, symbols), symbols) == []
    decreases n, 1
  {
    ApplyNamesKeepsWindowNames(n, symbols);
    RenameIdempotentForest(n.nodes, symbols);
  }

  lemma {:induction false} RenameIdempotentForest(stack: seq<Node>, symbols: Symbols)
    ensures CollectStack(ApplyNamesForest(stack, symbols), CommandEmitter(symbols), Always) == []
    decreases stack, 0
  {
    if |stack| > 0 {
      var renamed := ApplyNamesForest(stack, symbols);
      assert renamed[|renamed| - 1] == ApplyNames(stack[|stack| - 1], symbols);
      assert renamed[..|renamed| - 1] == ApplyNamesForest(stack[..|stack| - 1], symbols);
      RenameIdempotent(stack[|stack| - 1], symbols);
      RenameIdempotentForest(stack[..|stack| - 1], symbols);
    }
  }
}

=== FILE: sway_tree.dfy ===
/** The sway container tree (`swayipc::Node`) restricted to the fields the
    naming logic reads, and the explicit-stack traversal every tree walk of
    the sway backend uses. */
module SwayTree {
  import opened Wrappers
  import opened Seqs

  /** `swayipc::NodeType`. */
  datatype NodeType = Root | Output | Workspace | Con | FloatingCon | Dockarea

  /** `swayipc::WindowProperties`, reduced to the X11 instance name. */
  datatype WindowProperties = WindowProperties(instance: Option<string>)

  /** A tree node. Only the tiling children `nodes` are modelled: the walks
      never look at `floating_nodes`. */
  datatype Node = Node(
    id: int,
    nodeType: NodeType,
    num: Option<int>,
    name: Option<string>,
    appId: Option<string>,
    windowProperties: Option<WindowProperties>,
    nodes: seq<Node>)

  /** What a stack walk does with a popped node: the values it emits, and
      whether it pushes the node's children. The whole walk is then
      `Collect(root, emit, descend)`. */
  function Collect<T>(n: Node, emit: Node -> seq<T>, descend: Node -> bool): seq<T>
    decreases n
  {
    emit(n) + (if descend(n) then CollectStack(n.nodes, emit, descend) else [])
  }

  /** The output a walk still produces from a stack whose top is the last
      element: the top's subtree first, then the rest of the stack. */
  function CollectStack<T>(stack: seq<Node>, emit: Node -> seq<T>, descend: Node -> bool): seq<T>
    decreases stack
  {
    if |stack| == 0 then []
    else Collect(stack[|stack| - 1], emit, descend) + CollectStack(stack[..|stack| - 1], emit, descend)
  }

  /** Pushing `b` on top of `a` means `b` is fully drained before `a`. */
  lemma {:induction false} CollectStackAppend<T>(a: seq<Node>, b: seq<Node>, emit: Node -> seq<T>, descend: Node -> bool)
    ensures CollectStack(a + b, emit, descend) == CollectStack(b, emit, descend) + CollectStack(a, emit, descend)
    decreases |b|
  {
    if |b| == 0 {
      assert a + b == a;
    } else {
      var ab := a + b;
      assert ab[|ab| - 1] == b[|b| - 1];
      assert ab[..|ab| - 1] == a + b[..|b| - 1];
      CollectStackAppend(a, b[..|b| - 1], emit, descend);
    }
  }

  /** Number of nodes in a subtree. */
  function Size(n: Node): (k: nat)
    ensures k >= 1
    decreases n
  {
    1 + StackSize(n.nodes)
  }

  function StackSize(stack: seq<Node>): nat
    decreases stack
  {
    if |stack| == 0 then 0 else Size(stack[|stack| - 1]) + StackSize(stack[..|stack| - 1])
  }

  lemma {:induction false} StackSizeAppend(a: seq<Node>, b: seq<Node>)
    ensures StackSize(a + b) == StackSize(a) + StackSize(b)
    decreases |b|
  {
    if |b| == 0 {
      assert a + b == a;
    } else {
      var ab := a + b;
      assert ab[|ab| - 1] == b[|b| - 1];
      assert ab[..|ab| - 1] == a + b[..|b| - 1];
      StackSizeAppend(a, b[..|b| - 1]);
    }
  }

  /** The stack after one pop: the rest of the stack with the popped node's
      children on top when the walk descends into it. */
  function AfterPop(stack: seq<Node>, descend: Node -> bool): seq<Node>
    requires |stack| > 0
  {
    var node := stack[|stack| - 1];
    stack[..|stack| - 1] + (if descend(node) then node.nodes else [])
  }

  /** One pop emits the top's own values, and the rest of the output is the
      output of the new stack. */
  lemma PopOutput<T>(stack: seq<Node>, emit: Node -> seq<T>, descend: Node -> bool)
    requires |stack| > 0
    ensures CollectStack(stack, emit, descend)
         == emit(stack[|stack| - 1]) + CollectStack(AfterPop(stack, descend), emit, descend)
  {
    var node := stack[|stack| - 1];
    var rest := stack[..|stack| - 1];
    var pushed := if descend(node) then node.nodes else [];
    CollectStackAppend(rest, pushed, emit, descend);
  }

  /** Each pop shrinks the stack's total size. */
  lemma PopShrinks(stack: seq<Node>, descend: Node -> bool)
    requires |stack| > 0
    ensures StackSize(AfterPop(stack, descend)) < StackSize(stack)
  {
    var node := stack[|stack| - 1];
    var rest := stack[..|stack| - 1];
    var pushed := if descend(node) then node.nodes else [];
    StackSizeAppend(rest, pushed);
  }

  /** The source's loop `while let Some(node) = stack.pop() { ... }`, starting
      from `vec![root]`: pop the top, push its children left to right when
      `descend` says so, and append what `emit` yields. Its output is the
      recursive `Collect`. */
  method StackWalk<T>(root: Node, emit: Node -> seq<T>, descend: Node -> bool) returns (out: seq<T>)
    ensures out == Collect(root, emit, descend)
  {
    var stack := [root];
    out := [];
    assert CollectStack(stack, emit, descend) == Collect(root, emit, descend) + CollectStack([], emit, descend);
    while |stack| > 0
      invariant out + CollectStack(stack, emit, descend) == Collect(root, emit, descend)
      decreases StackSize(stack)
    {
      var node := stack[|stack| - 1];
      PopOutput(stack, emit, descend);
      PopShrinks(stack, descend);
      stack := stack[..|stack| - 1];
      if descend(node) {
        stack := stack + node.nodes;
      }
      out := out + emit(node);
    }
  }

  function Single(n: Node): seq<Node> { [n] }

  predicate Always(n: Node) { true }

  /** Every node of the subtree in pop order: the node, then its children's
      subtrees from the last child to the first (right-to-left pre-order). */
  function AllNodes(n: Node): seq<Node>
  {
    Collect(n, Single, Always)
  }

  /** Left-to-right post-order: the children's subtrees first to last, then the node. */
  function PostOrder(n: Node): seq<Node>
    decreases n
  {
    PostOrderForest(n.nodes) + [n]
  }

  function PostOrderForest(children: seq<Node>): seq<Node>
    decreases children
  {
    if |children| == 0 then [] else PostOrder(children[0]) + PostOrderForest(children[1..])
  }

  lemma {:induction false} PostOrderForestAppend(a: seq<Node>, b: seq<Node>)
    ensures PostOrderForest(a + b) == PostOrderForest(a) + PostOrderForest(b)
    decreases |a|
  {
    if |a| == 0 {
      assert a + b == b;
    } else {
      assert (a + b)[0] == a[0];
      assert (a + b)[1..] == a[1..] + b;
      PostOrderForestAppend(a[1..], b);
    }
  }

  /** Reversing the stack's pop order gives left-to-right post-order. */
  lemma {:induction false} AllNodesReversed(n: Node)
    ensures Reverse(AllNodes(n)) == PostOrder(n)
    decreases n, 1
  {
    AllNodesReversedForest(n.nodes);
    ReverseAppend([n], CollectStack(n.nodes, Single, Always));
  }

  lemma {:induction false} AllNodesReversedForest(stack: seq<Node>)
    ensures Reverse(CollectStack(stack, Single, Always)) == PostOrderForest(stack)
    decreases stack, 0
  {
    if |stack| > 0 {
      var top := stack[|stack| - 1];
      var rest := stack[..|stack| - 1];
      AllNodesReversed(top);
      AllNodesReversedForest(rest);
      ReverseAppend(Collect(top, Single, Always), CollectStack(rest, Single, Always));
      assert PostOrderForest([top]) == PostOrder(top) + PostOrderForest([]);
      PostOrderForestAppend(rest, [top]);
      assert rest + [top] == stack;
    }
  }

  /** A full walk (one that always descends) emits, per node in pop order,
      exactly what `emit` yields for that node. */
  lemma {:induction false} CollectIsFlatMap<T>(n: Node, emit: Node -> seq<T>)
    ensures Collect(n, emit, Always) == FlatMap(emit, AllNodes(n))
    decreases n, 1
  {
    CollectStackIsFlatMap(n.nodes, emit);
    assert AllNodes(n) == [n] + CollectStack(n.nodes, Single, Always);
    assert ([n] + CollectStack(n.nodes, Single, Always))[1..] == CollectStack(n.nodes, Single, Always);
  }

  lemma {:induction false} CollectStackIsFlatMap<T>(stack: seq<Node>, emit: Node -> seq<T>)
    ensures CollectStack(stack, emit, Always) == FlatMap(emit, CollectStack(stack, Single, Always))
    decreases stack, 0
  {
    if |stack| > 0 {
      var top := stack[|stack| - 1];
      var rest := stack[..|stack| - 1];
      CollectIsFlatMap(top, emit);
      CollectStackIsFlatMap(rest, emit);
      FlatMapAppend(emit, AllNodes(top), CollectStack(rest, Single, Always));
    }
  }

  /** Membership in a stack's output: some stacked node's subtree produced it. */
  lemma {:induction false} CollectStackMember<T>(stack: seq<Node>, emit: Node -> seq<T>, descend: Node -> bool, y: T)
    ensures y in CollectStack(stack, emit, descend) <==> exists n :: n in stack && y in Collect(n, emit, descend)
    decreases |stack|
  {
    if |stack| > 0 {
      var rest := stack[..|stack| - 1];
      var top := stack[|stack| - 1];
      CollectStackMember(rest, emit, descend, y);
      assert stack == rest + [top];
      if y in Collect(top, emit, descend) {
        assert top in stack;
      } else if y in CollectStack(rest, emit, descend) {
        var n :| n in rest && y in Collect(n, emit, descend);
        assert n in stack;
      } else {
        forall n | n in stack
          ensures y !in Collect(n, emit, descend)
        {
          if n != top {
            assert n in rest;
          }
        }
      }
    }
  }
}

=== FILE: text.dfy ===
/** String helpers: Rust's `join`, a splitting inverse for it, and decimal
    formatting of integers (`format!("{n}")`) with a parsing inverse. */
module Text {
  import opened Wrappers

  /** `Vec<String>::join(sep)`. */
  function Join(parts: seq<string>, sep: string): string
  {
    if |parts| == 0 then ""
    else if |parts| == 1 then parts[0]
    else parts[0] + sep + Join(parts[1..], sep)
  }

  /** Index of the first occurrence of `c` in `s`. */
  function IndexOf(s: string, c: char): (r: Option<nat>)
    ensures r.None? <==> c !in s
    ensures r.Some? ==> r.value < |s| && s[r.value] == c && c !in s[..r.value]
  {
    if |s| == 0 then None
    else if s[0] == c then Some(0)
    else match IndexOf(s[1..], c)
      case None => None
      case Some(i) => Some(i + 1)
  }

  /** The first `c` in `a + [c] + b` sits right after `a` when `a` has no `c`. */
  lemma {:induction false} IndexOfAfterPrefix(a: string, c: char, b: string)
    requires c !in a
    ensures IndexOf(a + [c] + b, c) == Some(|a|)
    decreases |a|
  {
    if |a| > 0 {
      assert (a + [c] + b)[1..] == a[1..] + [c] + b;
      IndexOfAfterPrefix(a[1..], c, b);
    }
  }

  lemma IndexOfAtQuote(a: string, b: string, c: char)
    requires c !in a
    requires |b| > 0 && b[0] == c
    ensures IndexOf(a + b, c) == Some(|a|)
  {
    assert a + b == a + [c] + b[1..];
    IndexOfAfterPrefix(a, c, b[1..]);
  }

  /** Splits `s` at every `c`; the inverse of joining with `[c]`. */
  function Split(s: string, c: char): (r: seq<string>)
    ensures |r| >= 1
    decreases |s|
  {
    match IndexOf(s, c)
    case None => [s]
    case Some(i) => [s[..i]] + Split(s[i + 1..], c)
  }

  /** Joining with a one-character separator that no part contains can be undone. */
  lemma {:induction false} SplitJoin(parts: seq<string>, c: char)
    requires |parts| >= 1
    requires forall i :: 0 <= i < |parts| ==> c !in parts[i]
    ensures Split(Join(parts, [c]), c) == parts
    decreases |parts|
  {
    if |parts| > 1 {
      var rest := Join(parts[1..], [c]);
      assert Join(parts, [c]) == parts[0] + [c] + rest;
      IndexOfAfterPrefix(parts[0], c, rest);
      var s := parts[0] + [c] + rest;
      assert s[..|parts[0]|] == parts[0];
      assert s[|parts[0]| + 1..] == rest;
      SplitJoin(parts[1..], c);
      assert parts == [parts[0]] + parts[1..];
    }
  }

  /** The character for one decimal digit. */
  function DigitChar(d: nat): (c: char)
    requires d < 10
    ensures '0' <= c <= '9'
  {
    (('0' as int) + d) as char
  }

  predicate IsDigit(c: char)
  {
    '0' <= c <= '9'
  }

  /** Decimal digits of a natural number, most significant first, no leading zeros. */
  function NatToDecimal(n: nat): (s: string)
    ensures |s| >= 1
    ensures forall i :: 0 <= i < |s| ==> IsDigit(s[i])
  {
    if n < 10 then [DigitChar(n)] else NatToDecimal(n / 10) + [DigitChar(n % 10)]
  }

  /** `format!("{n}")` for a signed integer. */
  function Decimal(n: int): (s: string)
    ensures |s| >= 1
    ensures forall i :: 0 <= i < |s| ==> IsDigit(s[i]) || (i == 0 && s[i] == '-')
  {
    if n < 0 then "-" + NatToDecimal(-n) else NatToDecimal(n)
  }

  /** Decimal text never contains a colon. */
  lemma DecimalHasNoColon(n: int)
    ensures ':' !in Decimal(n)
  {
    var s := Decimal(n);
    forall i | 0 <= i < |s|
      ensures s[i] != ':'
    {
    }
  }

  /** Reads a non-empty string of decimal digits. */
  function ParseNat(s: string): Option<nat>
  {
    if |s| == 0 || !IsDigit(s[|s| - 1]) then None
    else
      var d := (s[|s| - 1] as int) - ('0' as int);
      if |s| == 1 then Some(d)
      else match ParseNat(s[..|s| - 1])
        case None => None
        case Some(v) => Some(v * 10 + d)
  }

  /** Reads an optionally negative decimal integer. */
  function ParseDecimal(s: string): Option<int>
  {
    if |s| > 0 && s[0] == '-' then
      match ParseNat(s[1..])
      case None => None
      case Some(v) => Some(0 - v as int)
    else
      match ParseNat(s)
      case None => None
      case Some(v) => Some(v)
  }

  lemma {:induction false} ParseNatToDecimal(n: nat)
    ensures ParseNat(NatToDecimal(n)) == Some(n)
    decreases n
  {
    if n >= 10 {
      var s := NatToDecimal(n);
      assert s[..|s| - 1] == NatToDecimal(n / 10);
      ParseNatToDecimal(n / 10);
    }
  }

  /** Decimal formatting is undone by parsing, so distinct numbers print differently. */
  lemma DecimalRoundTrip(n: int)
    ensures ParseDecimal(Decimal(n)) == Some(n)
  {
    if n < 0 {
      assert Decimal(n)[1..] == NatToDecimal(-n);
      ParseNatToDecimal(-n);
    } else {
      ParseNatToDecimal(n);
    }
  }
}

=== FILE: wrappers.dfy ===
/** Rust's `Option`, `Result` and `Result<(), E>`, as plain datatypes used
    throughout the model. */
module Wrappers {

  /** Rust's `Option<T>`. */
  datatype Option<+T> = None | Some(value: T) {

    /** `unwrap_or` / `unwrap_or_default` with an explicit default. */
    function GetOr(default: T): T {
      match this
      case Some(v) => v
      case None => default
    }
  }

  /** Rust's `Result<T, E>`. */
  datatype Result<+T, +E> = Ok(value: T) | Err(error: E)

  /** Rust's `Result<(), E>`: success carries no value. */
  datatype Outcome<+E> = Pass | Fail(error: E)
}
